=== FILE: README.md ===
# AlphaPackTokenizer in Dafny

A model of the `AlphaPackTokenizer` class, a word-level tokenizer. It covers these parts:

- **Segmenter.** The tokenizer splits normalized text at spaces, which it drops, and at a fixed set of ASCII punctuation characters. Each of those characters becomes a one-character token.
- **Vocabulary store.** The store holds two maps, a `next_id` counter and a `vocab_size` capacity, with five special tokens at IDs 0 to 4. It gives a known word its stored ID. A new word gets the next sequential ID while capacity lasts, and after that a hash slot: in `[5, vocab_size)` when `vocab_size > 5`, and in `(vocab_size, 5]` when `vocab_size < 5`, where Python's `%` by the negative divisor `vocab_size - 5` gives a non-positive remainder. With `vocab_size == 5` that path divides by zero.
- **Encode and decode.** `encode` looks up every token, appends EOS and truncates or pads to `max_length`. `decode` stops at the first EOS, optionally drops PAD, UNK, SEP and BOS, writes `[id]` for an ID it does not know, and joins the words with single spaces.
- **Snapshot.** This is the object that `save_vocab` writes and `load_vocab` reads, with the file and the JSON text stripped away.

The tokenizer's state is an immutable `Vocab` record, threaded through pure functions. Two things are parameters instead of being modelled:

- `normalize: string -> string` stands for `text.lower().strip()`.
- `hash: string -> int` stands for Python's `hash`.

The two operations written as Python `for` statements, `_tokenize` and `decode`, are each modelled twice:

- as an independent recursive reference definition;
- as a `method` that follows the loop statement by statement, proved equal to the reference.

The comprehensions on lines 101, 156 and 169 are modelled once each, by the recursive function `AssignAll` and the map comprehensions `StringifyKeys` and `ParseKeys`.

The source's default arguments are Dafny default parameter values: `vocab_size=60000` on `Init` and `New`, `vocab_path=None` (no stored vocabulary) on `New`, `max_length=512` and `padding='max_length'` on `Encode`, and `skip_special_tokens=True` on `Decode`.

The modules are:

| module | file | contents |
|---|---|---|
| `Wrappers` | wrappers.dfy | `Option` |
| `Collections` | collections.dfy | generic facts about sequence concatenation and slicing, and subset cardinality, used by the proofs |
| `Decimal` | decimal.dfy | `str` and `int` on integers: `IntToString`, `ParseInt` |
| `Segmenter` | segmenter.dfy | `Segment` (the reference definition), `Tokenize` (the loop) and their properties |
| `Vocabulary` | vocabulary.dfy | constructor state, `_word_to_id`, `__len__`, `get_vocab`, and the invariants `Valid` and `Dense` |
| `Codec` | codec.dfy | `encode`, the decode pipeline and the `Decode` loop, and the round trip |
| `Snapshot` | snapshot.dfy | `save_vocab`, `load_vocab`, and the constructor with a vocabulary file |

The store satisfies two invariants:

- **`Valid`** holds in every state reachable from `Init` (with `vocab_size > 5`) by lookups and encodes, and after reloading a saved valid store. A hand-written file that omits `vocab_size` can break it, since the capacity then defaults to the word count. `Valid` requires:
  - the specials are in place;
  - `id_to_word` points only at words that map back to that ID;
  - every ID lies in `[0, vocab_size)`;
  - `5 <= next_id <= vocab_size`.
- **`Dense`** is the sequential regime:
  - the two maps are exact inverses;
  - every ID is below `next_id`.

  A hash-slot assignment can overwrite another word's `id_to_word` entry, so `Dense` only lasts while capacity remains. The round trip (decode after encode) is proved under `Dense`.

## Model

| member | source | states |
|---|---|---|
| Segmenter.Tokenize | alphapack_tokenizer.py:53-68 | The character scan, with its pending-word buffer, returns exactly `Segment` of the normalized text. `Segment` is the definition that cuts at the first space or delimiter. |
| Segmenter.SegmentAtSeparator | alphapack_tokenizer.py:57-66 | Cutting the text at any separator, not only the first, splits the token list at that point: `Segment(a + [c] + b) == Segment(a) + token(c) + Segment(b)`. |
| Segmenter.SegmentWellFormed | alphapack_tokenizer.py:56-68 | No token is empty and no token contains a space. A token that contains a delimiter is that delimiter alone. |
| Segmenter.SegmentConcat | alphapack_tokenizer.py:55-68 | Concatenating the tokens gives the normalized text with every space removed. |
| Segmenter.SegmentDelimiters | alphapack_tokenizer.py:60-63 | The delimiters of the text, in order, are exactly the one-character delimiter tokens. |
| Segmenter.DelimitersListed | alphapack_tokenizer.py:45 | The range test used for delimiters accepts exactly the 31 listed punctuation characters. |
| Segmenter.SegmentExample | alphapack_tokenizer.py:53-68 | `"hello, world!"` segments to `["hello", ",", "world", "!"]`. |
| Vocabulary.Init | alphapack_tokenizer.py:35-44 | The constructor state: each of the five special names is mapped to its ID and back. Both maps hold nothing else, and `next_id` is 5. |
| Vocabulary.InitDense | alphapack_tokenizer.py:35-44 | The constructor state satisfies the sequential-regime invariant whenever `vocab_size > 5`. |
| Vocabulary.InitSize | alphapack_tokenizer.py:178-180 | `len()` of a fresh tokenizer is 5. |
| Vocabulary.GetVocab | alphapack_tokenizer.py:182-184 | `get_vocab` returns a map with `len()` entries, holding exactly the known words, each at its stored ID. |
| Vocabulary.GetVocabAfterLookup | alphapack_tokenizer.py:70-85 | After a lookup, `get_vocab` is the earlier map with the word set to the returned ID. |
| Vocabulary.FloorMod | alphapack_tokenizer.py:81 | Python's `%`: the remainder completing floor division, in `[0, d)` for a positive divisor and in `(d, 0]` for a negative one. |
| Vocabulary.HashSlot | alphapack_tokenizer.py:81 | The fallback ID lies in `[5, vocab_size)` when `vocab_size > 5`. When `vocab_size < 5` it lies in `(vocab_size, 5]`, so it can overwrite a special or exceed the capacity. `vocab_size == 5` is excluded, as there the source divides by zero. |
| Vocabulary.WordToId | alphapack_tokenizer.py:70-85 | Covers the three paths. **Known word:** the stored ID is returned and the state is unchanged. **New word with capacity left:** gets the old `next_id`, and `next_id` grows by one. **New word without capacity:** gets the hash slot, and `next_id` stays. The only call that raises, the hash path with `vocab_size == 5`, is excluded. In all cases the keys grow by the word only, other words' IDs are unchanged, and only the returned ID's `id_to_word` entry changes. |
| Vocabulary.WordToIdValid | alphapack_tokenizer.py:70-85 | Every path preserves the invariant: specials in place, `id_to_word` a right inverse of `word_to_id`, IDs in range, `next_id <= vocab_size`. This holds after hash collisions too. |
| Vocabulary.WordToIdDense | alphapack_tokenizer.py:76-84 | In the sequential regime, a lookup keeps the two maps exact inverses. The result maps back to the word, and a new word's ID exceeds every earlier ID. |
| Vocabulary.WordToIdIdempotent | alphapack_tokenizer.py:72-73 | Looking the same word up twice gives the same ID and the same state as looking it up once. |
| Vocabulary.WordToIdSize | alphapack_tokenizer.py:83 | `len()` grows by one exactly when the word was unknown. |
| Decimal.IntToString | alphapack_tokenizer.py:156 | `str(k)` is non-empty and starts with `-` exactly for negative `k`. |
| Decimal.ParseIntOfIntToString | alphapack_tokenizer.py:169 | `int(str(k)) == k` for every integer. |
| Decimal.NatToString | alphapack_tokenizer.py:156 | The decimal digits of a natural number are canonical (no leading zero) and denote that number. |
| Decimal.ParsedIsIntToString | alphapack_tokenizer.py:169 | Every string the parser accepts is `str` of its value. |
| Decimal.CanonicalIsNatToString | alphapack_tokenizer.py:169 | A canonical digit string is the decimal form of its own value, so no two canonical strings denote the same number. |
| Decimal.IntToStringInjective | alphapack_tokenizer.py:156 | `str` never gives two integers the same text, so stringified keys never collide. |
| Codec.AssignAll | alphapack_tokenizer.py:101 | One ID per word, and each word maps to its own ID in the final state. Earlier entries are kept, only the looked-up words are added, and `next_id` grows by at most one per word. The left-to-right order of the lookups is stated by Codec.AssignAllOrder. |
| Codec.AssignAllOrder | alphapack_tokenizer.py:101 | The lookups run left to right: in the sequential regime, the first occurrence of a new word gets `next_id` plus the number of distinct new words before it. New words are thus numbered `next_id`, `next_id + 1`, … in order of first occurrence. |
| Codec.AssignAllValid | alphapack_tokenizer.py:101 | A sequence of lookups keeps the store invariant. |
| Codec.AssignAllDense | alphapack_tokenizer.py:101 | While capacity covers one new ID per distinct unknown word (repeats reuse their ID), a sequence of lookups stays in the sequential regime. |
| Codec.Pads | alphapack_tokenizer.py:107 | `[pad_token_id] * n` has length `n` and holds only PAD. |
| Codec.Encode | alphapack_tokenizer.py:100-107 | With `k` tokens and `max_length` L: with `'max_length'` padding the result has exactly L IDs, otherwise `min(k+1, L)`. The token positions hold each token's ID in the final state, position `k` (if present) holds EOS, and everything after it is PAD. The state gains every token of the text, truncated ones included, and nothing else; new tokens are numbered in order of first occurrence (Codec.AssignAllOrder, since `encode` looks the tokens up through `AssignAll`). |
| Codec.EncodeValid | alphapack_tokenizer.py:100-101 | Encoding preserves the store invariant. |
| Codec.BeforeEos | alphapack_tokenizer.py:143-144 | The result is the longest EOS-free prefix: a prefix of the IDs, holding no EOS, and followed by EOS when shorter than the input. |
| Codec.Kept | alphapack_tokenizer.py:145-146 | The IDs that are kept are drawn from the input and none of them is skipped. When nothing needs skipping, the input comes back unchanged. |
| Codec.WordsOf | alphapack_tokenizer.py:147-148 | One word per ID: the `id_to_word` entry, or the placeholder `[id]`. |
| Codec.Decode | alphapack_tokenizer.py:137-150 | The Python loop, with `break` at EOS and `continue` past skipped IDs, returns exactly the join of the reference pipeline: cut at EOS, filter, look up. |
| Codec.DecodedWordsAppend | alphapack_tokenizer.py:142-148 | Before the first EOS, decoding is a homomorphism: the words of `a + b` are the words of `a` followed by the words of `b`. |
| Codec.DecodedWordsSingle | alphapack_tokenizer.py:143-148 | One ID decodes to nothing if it is EOS or skipped, and otherwise to its word or placeholder. |
| Codec.DecodeStopsAtEos | alphapack_tokenizer.py:143-144 | The text depends only on the IDs before the first EOS. |
| Codec.DecodeSkipsSpecial | alphapack_tokenizer.py:145-146 | With skipping on, PAD, UNK, SEP and BOS contribute nothing wherever they stand. |
| Codec.DecodeNamesSpecial | alphapack_tokenizer.py:145-147 | With skipping off, a special ID other than EOS decodes to its name. |
| Codec.DecodeUnknownId | alphapack_tokenizer.py:147 | An unknown ID decodes to `[` + `str(id)` + `]`, and `int` reads the ID back from between the brackets. |
| Codec.SplitJoin | alphapack_tokenizer.py:150 | Splitting the single-space join of space-free words on `' '` gives the words back. |
| Codec.SpecialNameNotToken | alphapack_tokenizer.py:36 | No special name can be a segmenter token, since each one contains the delimiter `<` and has length 5. |
| Codec.TokenIdNotSpecial | alphapack_tokenizer.py:36 | In the sequential regime, a segmenter token is never mapped to a special ID. |
| Codec.DecodeWordIds | alphapack_tokenizer.py:141-150 | In the sequential regime, the IDs of a word sequence, followed by EOS, decode to exactly those words. |
| Codec.EncodeDecodeRoundTrip | alphapack_tokenizer.py:100-107 | Decoding the result of `encode` gives back exactly the segmented words. This holds in the sequential regime with capacity for every distinct token not yet known and `max_length > k`, for either skip setting and either padding mode. |
| Codec.FreshUnseen | alphapack_tokenizer.py:36 | A fresh store knows none of the segmenter's tokens, so all of them take new IDs. |
| Codec.FreshRoundTrip | alphapack_tokenizer.py:141-150 | Takes a fresh tokenizer with `5 + d <= vocab_size` for the `d` distinct tokens, and `k < max_length` for the `k` tokens. The decoded text is the tokens joined by single spaces, and splitting it on spaces returns the tokens. |
| Snapshot.StringifyKeys | alphapack_tokenizer.py:156 | The text-keyed map holds `str(i)` exactly for the keys `i`, each with the same entry. |
| Snapshot.StringifiedKeysParse | alphapack_tokenizer.py:156 | `int` accepts every key that was written by `str`. |
| Snapshot.ParseKeys | alphapack_tokenizer.py:169 | `i` is a key of the parsed map exactly when `str(i)` was a key, with the entry stored there. |
| Snapshot.ParseKeysInverse | alphapack_tokenizer.py:169 | Parsing the keys undoes any stringification of an integer-keyed map. |
| Snapshot.ParseStringifyKeys | alphapack_tokenizer.py:169 | Stringifying the keys and parsing them back reproduces `id_to_word` exactly. |
| Snapshot.Save | alphapack_tokenizer.py:154-159 | The snapshot holds `word_to_id`, `vocab_size` and `next_id` as they are, with `id_to_word` keyed by `str` of its keys. |
| Snapshot.Load | alphapack_tokenizer.py:164-171 | **Missing `word_to_id`:** fails with nothing changed. **Missing `id_to_word`:** fails after `word_to_id` has already been replaced. **Malformed key:** fails with the same partial state. **Success:** exactly when both maps are present and every key parses. The fields are then taken from the snapshot, and a missing `vocab_size` or `next_id` defaults to the number of loaded words. |
| Snapshot.SaveLoadRoundTrip | alphapack_tokenizer.py:152-171 | Loading a saved store into any state restores the saved store exactly. |
| Snapshot.New | alphapack_tokenizer.py:27-51 | Without a vocabulary file, the constructor's store holds the five specials, has the given capacity and `next_id` 5, and is in the sequential regime when `vocab_size > 5`. With one, it succeeds exactly when the file has both maps and every key parses. On success the store holds the file's `word_to_id` and its `id_to_word` with keys read back by `int`, and `vocab_size` and `next_id` come from the file or default to `len(word_to_id)`; the `vocab_size` argument is then ignored. A failure leaves the fresh `id_to_word`. |
| Snapshot.NewFromSaved | alphapack_tokenizer.py:48-49 | Constructing from a saved vocabulary yields the saved store, whatever `vocab_size` was passed in. |
| Snapshot.LoadNotAtomic | alphapack_tokenizer.py:168-169 | A snapshot without `id_to_word` leaves the new `word_to_id` next to the old `id_to_word`, counter and capacity. |

## Left out

- File I/O, the JSON text, `os.path.exists`, and `print` logging: a snapshot is the parsed JSON object, and the constructor receives it as an `Option`.
- PyTorch interop (`return_tensors='pt'` and tensor input to `decode`): optional foreign library.
- `__call__`: a one-line forwarder to `encode`.
- `str.lower` and `str.strip` (Unicode case mapping and whitespace): abstracted as the `normalize` parameter. Every segmenter property holds for any normalization.
- The values of Python's `hash`: abstracted as the `hash` parameter. Only the range of the fallback slot is stated.
- Snapshot fields of the wrong JSON type (for example a list where `word_to_id` is expected, or `null` for `vocab_size`): the snapshot is typed.
- Decode input that is not made of integers: the IDs are integers.
- Decimal.ParseInt, Snapshot.ParseKeys, Snapshot.Load, Snapshot.New: `int(k)` accepts only the canonical text `str` produces. Python's `int` also accepts surrounding whitespace, a `+` sign, leading zeros, `-0` and underscores. So Snapshot.Load rejects some hand-edited files that the source loads, and it never merges two keys such as `"1"` and `"01"`.
- Codec.AssignAll, Codec.Encode: require `vocab_size != 5` on every call, even when no lookup reaches the hash path (all words known, or `next_id` below the capacity). The source raises `ZeroDivisionError` only when a new word reaches the hash path with `vocab_size == 5`; Vocabulary.WordToId states that exact condition for a single lookup.
- Codec.Encode: `max_length` is a natural number. Python slicing with a negative `max_length` follows other rules.
- The delimiter string on line 45 is garbled around `\\'`, so its spelling does not settle whether `'`, `\` and `` ` `` are delimiters. The model takes every ASCII punctuation character except `_` as a delimiter, which includes all three, and no property depends on those three characters.
- Load atomicity: line 168 assigns `word_to_id` before `int(k)` on line 169 can raise, so a failing load leaves the two maps out of sync. The model follows the code, and Snapshot.LoadNotAtomic exhibits the partial state.
- setup.py and `__init__.py`: packaging and a re-export, with no logic.

=== FILE: codec.dfy ===
/** Encoding and decoding of `AlphaPackTokenizer`: `encode` segments the
    text, looks every token up in the vocabulary, appends EOS and truncates
    or pads to `max_length`; `decode` stops at the first EOS, drops the
    skipped special IDs, looks the rest up and joins them with spaces. */
module Codec {
  import opened Wrappers
  import opened Collections
  import opened Decimal
  import opened Segmenter
  import opened Vocabulary

  /** The default `max_length` of `encode`. */
  const DefaultMaxLength := 512

  datatype Encoding = Encoding(vocab: Vocab, ids: seq<int>)

  /** The distinct words of `words` the store does not know yet: the ones a
      run of lookups hands new IDs, each once however often it repeats. */
  function Unseen(v: Vocab, words: seq<string>): set<string> {
    set w | w in words && w !in v.wordToId
  }

  /** The list comprehension `[self._word_to_id(w) for w in words]`: the
      store is threaded through the lookups from left to right. */
  function AssignAll(v: Vocab, words: seq<string>, hash: string -> int): (r: Encoding)
    requires v.vocabSize != NumSpecial
    ensures |r.ids| == |words|
    ensures forall k :: 0 <= k < |words| ==>
      words[k] in r.vocab.wordToId && r.vocab.wordToId[words[k]] == r.ids[k]
    ensures forall u :: u in v.wordToId ==> u in r.vocab.wordToId && r.vocab.wordToId[u] == v.wordToId[u]
    ensures forall u :: u in r.vocab.wordToId ==> u in v.wordToId || u in words
    ensures r.vocab.vocabSize == v.vocabSize
    ensures v.nextId <= r.vocab.nextId <= v.nextId + |words|
    decreases |words|
  {
    if |words| == 0 then Encoding(v, [])
    else
      var first := WordToId(v, words[0], hash);
      var rest := AssignAll(first.vocab, words[1..], hash);
      Encoding(rest.vocab, [first.id] + rest.ids)
  }

  /** PAD repeated `n` times. */
  function Pads(n: nat): (r: seq<int>)
    ensures |r| == n && forall k :: 0 <= k < n ==> r[k] == PadId
  {
    seq(n, _ => PadId)
  }

  /** `encode(text, max_length, padding)` without the tensor conversion;
      `padToMax` stands for `padding == 'max_length'`. With `k` tokens, the
      result is the `k` token IDs, EOS, then PAD up to `max_length` when
      asked, all cut to `max_length`: EOS is lost when `k >= max_length`. */
  function Encode(v: Vocab, text: string, normalize: string -> string, hash: string -> int,
                  maxLength: nat := DefaultMaxLength, padToMax: bool := true): (r: Encoding)
    requires v.vocabSize != NumSpecial
    ensures var words := Segment(normalize(text));
      && (padToMax ==> |r.ids| == maxLength)
      && (!padToMax ==> |r.ids| == if |words| + 1 <= maxLength then |words| + 1 else maxLength)
      && (forall k :: 0 <= k < |r.ids| && k < |words| ==>
            words[k] in r.vocab.wordToId && r.ids[k] == r.vocab.wordToId[words[k]])
      && (|words| < |r.ids| ==> r.ids[|words|] == EosId)
      && (forall k :: |words| < k < |r.ids| ==> r.ids[k] == PadId)
      && (forall u :: u in v.wordToId ==> u in r.vocab.wordToId && r.vocab.wordToId[u] == v.wordToId[u])
      && (forall u :: u in r.vocab.wordToId ==> u in v.wordToId || u in words)
      && (forall k :: 0 <= k < |words| ==> words[k] in r.vocab.wordToId)
  {
    var words := Segment(normalize(text));
    var looked := AssignAll(v, words, hash);
    var ids := looked.ids + [EosId];
    if |ids| > maxLength then Encoding(looked.vocab, ids[..maxLength])
    else if padToMax then Encoding(looked.vocab, ids + Pads(maxLength - |ids|))
    else Encoding(looked.vocab, ids)
  }

  /** Looking up a sequence of words keeps the store valid. */
  lemma {:induction false} AssignAllValid(v: Vocab, words: seq<string>, hash: string -> int)
    requires Valid(v)
    ensures Valid(AssignAll(v, words, hash).vocab)
    decreases |words|
  {
    if |words| > 0 {
      WordToIdValid(v, words[0], hash);
      AssignAllValid(WordToId(v, words[0], hash).vocab, words[1..], hash);
    }
  }

  /** While the capacity covers one new ID per distinct unknown word, the
      store stays dense: a repeated word reuses its ID. */
  lemma {:induction false} AssignAllDense(v: Vocab, words: seq<string>, hash: string -> int)
    requires Dense(v)
    requires v.nextId + |Unseen(v, words)| <= v.vocabSize
    ensures Dense(AssignAll(v, words, hash).vocab)
    decreases |words|
  {
    if |words| > 0 {
      var w := words[0];
      var first := WordToId(v, w, hash);
      var rest := words[1..];
      if w in v.wordToId {
        assert Unseen(first.vocab, rest) <= Unseen(v, words);
        SubsetCard(Unseen(first.vocab, rest), Unseen(v, words));
      } else {
        var others := Unseen(v, words) - {w};
        assert Unseen(v, words) == others + {w};
        assert Unseen(first.vocab, rest) <= others;
        SubsetCard(Unseen(first.vocab, rest), others);
      }
      WordToIdDense(v, w, hash);
      AssignAllDense(first.vocab, rest, hash);
    }
  }

  /** Looking up `w` and then `ws`: a known `w` leaves the unseen words of
      `ws` as they were, a new one is taken out of them. */
  lemma UnseenCons(v: Vocab, u: Vocab, w: string, ws: seq<string>)
    requires u.wordToId.Keys == v.wordToId.Keys + {w}
    ensures w in v.wordToId ==> Unseen(v, [w] + ws) == Unseen(u, ws)
    ensures w !in v.wordToId ==>
      Unseen(v, [w] + ws) == Unseen(u, ws) + {w} && w !in Unseen(u, ws)
  {
  }

  /** Counting unseen words in a prefix after the first word was looked
      up: one fewer when that word was new. */
  lemma UnseenPrefixCard(v: Vocab, u: Vocab, words: seq<string>, j: nat)
    requires 0 < j <= |words|
    requires u.wordToId.Keys == v.wordToId.Keys + {words[0]}
    ensures |Unseen(v, words[..j])| ==
      |Unseen(u, words[1..][..j - 1])| + (if words[0] in v.wordToId then 0 else 1)
  {
    PrefixCons(words, j);
    UnseenCons(v, u, words[0], words[1..][..j - 1]);
  }

  /** A first occurrence after position 0 stays a first occurrence in the
      tail, and differs from the head. */
  lemma FirstOccurrenceInTail(words: seq<string>, k: nat)
    requires 0 < k < |words| && words[k] !in words[..k]
    ensures words[k] != words[0]
    ensures words[1..][k - 1] !in words[1..][..k - 1]
  {
    assert words[..k][0] == words[0];
    var tail, prefix := words[1..][..k - 1], words[..k];
    assert forall j :: 0 <= j < |tail| ==> tail[j] == prefix[j + 1];
  }

  /** The lookups run left to right: in the sequential regime the first
      occurrence of a new word gets `next_id` plus the number of distinct
      new words before it, so new words are numbered in order of first
      occurrence. */
  lemma {:induction false} AssignAllOrder(v: Vocab, words: seq<string>, hash: string -> int, k: nat)
    requires v.vocabSize != NumSpecial
    requires k < |words| && words[k] !in v.wordToId && words[k] !in words[..k]
    requires v.nextId + |Unseen(v, words[..k + 1])| <= v.vocabSize
    ensures AssignAll(v, words, hash).ids[k] == v.nextId + |Unseen(v, words[..k])|
    decreases k
  {
    var first := WordToId(v, words[0], hash);
    if k == 0 {
      PrefixCons(words, 1);
      assert Unseen(v, words[..1]) == {words[0]};
    } else {
      FirstOccurrenceInTail(words, k);
      UnseenPrefixCard(v, first.vocab, words, k + 1);
      UnseenPrefixCard(v, first.vocab, words, k);
      AssignAllOrder(first.vocab, words[1..], hash, k - 1);
    }
  }

  /** Encoding keeps the store valid. */
  lemma EncodeValid(v: Vocab, text: string, maxLength: nat, padToMax: bool,
                    normalize: string -> string, hash: string -> int)
    requires Valid(v)
    ensures Valid(Encode(v, text, normalize, hash, maxLength, padToMax).vocab)
  {
    AssignAllValid(v, Segment(normalize(text)), hash);
  }

  /** IDs that `skip_special_tokens` drops: PAD, UNK, SEP and BOS. EOS is
      handled by the stop rule instead. */
  predicate Skipped(id: int, skipSpecial: bool) {
    skipSpecial && (id == PadId || id == UnkId || id == SepId || id == BosId)
  }

  /** The IDs before the first EOS. */
  function BeforeEos(ids: seq<int>): (r: seq<int>)
    ensures |r| <= |ids| && r == ids[..|r|]
    ensures EosId !in r
    ensures |r| < |ids| ==> ids[|r|] == EosId
  {
    if |ids| == 0 || ids[0] == EosId then []
    else [ids[0]] + BeforeEos(ids[1..])
  }

  /** The IDs that are not skipped, in order. */
  function Kept(ids: seq<int>, skipSpecial: bool): (r: seq<int>)
    ensures forall k :: 0 <= k < |r| ==> r[k] in ids && !Skipped(r[k], skipSpecial)
    ensures (forall k :: 0 <= k < |ids| ==> !Skipped(ids[k], skipSpecial)) ==> r == ids
  {
    if |ids| == 0 then []
    else (if Skipped(ids[0], skipSpecial) then [] else [ids[0]]) + Kept(ids[1..], skipSpecial)
  }

  /** The visible stand-in `f"[{tid}]"` for an ID the vocabulary lacks. */
  function Placeholder(id: int): string {
    "[" + IntToString(id) + "]"
  }

  /** `id_to_word.get(tid, f"[{tid}]")`. */
  function WordOf(v: Vocab, id: int): string {
    if id in v.idToWord then v.idToWord[id] else Placeholder(id)
  }

  /** The word of every ID, in order. */
  function WordsOf(v: Vocab, ids: seq<int>): (r: seq<string>)
    ensures |r| == |ids|
    ensures forall k :: 0 <= k < |ids| ==> r[k] == WordOf(v, ids[k])
  {
    seq(|ids|, k requires 0 <= k < |ids| => WordOf(v, ids[k]))
  }

  /** The words `decode` joins, as a pipeline: cut at the first EOS, drop
      the skipped IDs, look the rest up. */
  function DecodedWords(v: Vocab, ids: seq<int>, skipSpecial: bool): seq<string> {
    WordsOf(v, Kept(BeforeEos(ids), skipSpecial))
  }

  /** `' '.join(words)`. */
  function Join(words: seq<string>): string {
    if |words| == 0 then ""
    else if |words| == 1 then words[0]
    else words[0] + " " + Join(words[1..])
  }

  /** The text `decode` returns. */
  function DecodeText(v: Vocab, ids: seq<int>, skipSpecial: bool): string {
    Join(DecodedWords(v, ids, skipSpecial))
  }

  /** What `decode` accepts: a flat list of IDs, or a list of lists of
      which only the first is read. */
  datatype IdInput = Flat(ids: seq<int>) | Nested(rows: seq<seq<int>>)

  /** The nested-list unwrap of `decode`: a non-empty list of lists gives
      its first row; an empty list decodes as no IDs. */
  function Unwrap(input: IdInput): seq<int> {
    match input
    case Flat(ids) => ids
    case Nested(rows) => if |rows| > 0 then rows[0] else []
  }

  lemma {:induction false} KeptAppend(a: seq<int>, b: seq<int>, skipSpecial: bool)
    ensures Kept(a + b, skipSpecial) == Kept(a, skipSpecial) + Kept(b, skipSpecial)
    decreases |a|
  {
    if |a| > 0 {
      assert (a + b)[1..] == a[1..] + b;
      KeptAppend(a[1..], b, skipSpecial);
      AppendAssoc(if Skipped(a[0], skipSpecial) then [] else [a[0]], Kept(a[1..], skipSpecial), Kept(b, skipSpecial));
    } else {
      assert a + b == b;
    }
  }

  lemma {:induction false} WordsOfAppend(v: Vocab, a: seq<int>, b: seq<int>)
    ensures WordsOf(v, a + b) == WordsOf(v, a) + WordsOf(v, b)
  {
    assert WordsOf(v, a + b) == WordsOf(v, a) + WordsOf(v, b) by {
      var l, r := WordsOf(v, a + b), WordsOf(v, a) + WordsOf(v, b);
      assert |l| == |r|;
      forall k | 0 <= k < |l| ensures l[k] == r[k] {
        if k < |a| {
          assert (a + b)[k] == a[k];
        } else {
          assert (a + b)[k] == b[k - |a|];
        }
      }
    }
  }

  /** `decode` as the source writes it: one pass with `break` at EOS and
      `continue` past skipped IDs, then the join. */
  method Decode(v: Vocab, input: IdInput, skipSpecial: bool := true) returns (text: string)
    ensures text == DecodeText(v, Unwrap(input), skipSpecial)
  {
    var ids := Unwrap(input);
    var words: seq<string> := [];
    var i := 0;
    while i < |ids|
      invariant 0 <= i <= |ids|
      invariant EosId !in ids[..i]
      invariant words == WordsOf(v, Kept(ids[..i], skipSpecial))
    {
      var tid := ids[i];
      if tid == EosId {
        break;
      }
      DecodeStep(v, ids, i, skipSpecial);
      if skipSpecial && tid in [0, 2, 3, 4] {
        i := i + 1;
        continue;
      }
      words := words + [WordOf(v, tid)];
      i := i + 1;
    }
    BeforeEosOfPrefix(ids, i);
    text := Join(words);
  }

  /** The loop of Decode ends at the end of the IDs or at an EOS, and in
      both cases the IDs it has read are the ones before the first EOS. */
  lemma BeforeEosOfPrefix(ids: seq<int>, i: nat)
    requires i <= |ids| && EosId !in ids[..i]
    requires i < |ids| ==> ids[i] == EosId
    ensures BeforeEos(ids) == ids[..i]
  {
  }

  /** One pass of the loop of Decode over a non-EOS ID. */
  lemma {:induction false} DecodeStep(v: Vocab, ids: seq<int>, i: nat, skipSpecial: bool)
    requires i < |ids| && ids[i] != EosId && EosId !in ids[..i]
    ensures EosId !in ids[..i + 1]
    ensures WordsOf(v, Kept(ids[..i + 1], skipSpecial)) ==
      WordsOf(v, Kept(ids[..i], skipSpecial))
        + (if skipSpecial && ids[i] in [0, 2, 3, 4] then [] else [WordOf(v, ids[i])])
  {
    var before, tid := ids[..i], ids[i];
    assert ids[..i + 1] == before + [tid];
    KeptAppend(before, [tid], skipSpecial);
    WordsOfAppend(v, Kept(before, skipSpecial), Kept([tid], skipSpecial));
    WordsOfKeptSingle(v, tid, skipSpecial);
  }

  /** The words of one ID after filtering: none when it is skipped, else its word. */
  lemma WordsOfKeptSingle(v: Vocab, tid: int, skipSpecial: bool)
    ensures WordsOf(v, Kept([tid], skipSpecial)) == if Skipped(tid, skipSpecial) then [] else [WordOf(v, tid)]
  {
    assert Kept([tid], skipSpecial) == if Skipped(tid, skipSpecial) then [] else [tid] by {
      assert [tid][1..] == [];
    }
    if !Skipped(tid, skipSpecial) {
      var w := WordsOf(v, [tid]);
      assert |w| == 1 && w[0] == WordOf(v, tid);
    }
  }

  /** BeforeEos of a concatenation: the cut falls in `a` when `a` holds an
      EOS, and otherwise `a` is kept whole. */
  lemma {:induction false} BeforeEosAppend(a: seq<int>, b: seq<int>)
    ensures BeforeEos(a + b) == if EosId in a then BeforeEos(a) else a + BeforeEos(b)
    decreases |a|
  {
    if |a| > 0 {
      assert (a + b)[0] == a[0];
      if a[0] != EosId {
        assert (a + b)[1..] == a[1..] + b;
        BeforeEosAppend(a[1..], b);
        assert EosId in a <==> EosId in a[1..] by {
          assert a == [a[0]] + a[1..];
        }
        if EosId !in a {
          AppendAssoc([a[0]], a[1..], BeforeEos(b));
          assert [a[0]] + a[1..] == a;
        }
      }
    } else {
      assert a + b == b;
    }
  }

  /** Decoding is a homomorphism up to the first EOS: the words of `a + b`
      are those of `a` followed by those of `b` when `a` holds no EOS. */
  lemma {:induction false} DecodedWordsAppend(v: Vocab, a: seq<int>, b: seq<int>, skipSpecial: bool)
    requires EosId !in a
    ensures DecodedWords(v, a + b, skipSpecial) == DecodedWords(v, a, skipSpecial) + DecodedWords(v, b, skipSpecial)
  {
    BeforeEosAppend(a, b);
    BeforeEosOfPrefix(a, |a|);
    assert a[..|a|] == a;
    KeptAppend(a, BeforeEos(b), skipSpecial);
    WordsOfAppend(v, Kept(a, skipSpecial), Kept(BeforeEos(b), skipSpecial));
  }

  /** The words of one ID: nothing for EOS or a skipped ID, otherwise its
      entry in `id_to_word`, or the bracketed placeholder when it has none. */
  lemma DecodedWordsSingle(v: Vocab, id: int, skipSpecial: bool)
    ensures DecodedWords(v, [id], skipSpecial) ==
      if id == EosId || Skipped(id, skipSpecial) then [] else [WordOf(v, id)]
  {
    assert [id][1..] == [];
    if id != EosId {
      assert BeforeEos([id]) == [id];
    }
  }

  /** Everything from the first EOS on is ignored. */
  lemma DecodeStopsAtEos(v: Vocab, a: seq<int>, b: seq<int>, skipSpecial: bool)
    requires EosId !in a
    ensures DecodeText(v, a + [EosId] + b, skipSpecial) == DecodeText(v, a, skipSpecial)
  {
    var ids := a + [EosId] + b;
    assert ids[..|a|] == a;
    BeforeEosOfPrefix(ids, |a|);
    BeforeEosOfPrefix(a, |a|);
    assert a[..|a|] == a;
  }

  /** With skipping on, PAD, UNK, SEP and BOS vanish from the text wherever
      they stand. */
  lemma DecodeSkipsSpecial(v: Vocab, a: seq<int>, id: int, b: seq<int>)
    requires id == PadId || id == UnkId || id == SepId || id == BosId
    ensures DecodeText(v, a + [id] + b, true) == DecodeText(v, a + b, true)
  {
    assert a + [id] + b == a + ([id] + b);
    if EosId !in a {
      DecodedWordsAppend(v, a, [id] + b, true);
      DecodedWordsAppend(v, [id], b, true);
      DecodedWordsSingle(v, id, true);
      DecodedWordsAppend(v, a, b, true);
      assert [] + DecodedWords(v, b, true) == DecodedWords(v, b, true);
    } else {
      BeforeEosAppend(a, [id] + b);
      BeforeEosAppend(a, b);
    }
  }

  /** With skipping off, a special ID other than EOS decodes to its name. */
  lemma DecodeNamesSpecial(v: Vocab, id: int)
    requires Valid(v)
    requires 0 <= id < NumSpecial && id != EosId
    ensures DecodedWords(v, [id], false) == [SpecialNames[id]]
  {
    DecodedWordsSingle(v, id, false);
  }

  /** An ID the vocabulary lacks decodes to a placeholder from which the ID
      can be read back. */
  lemma DecodeUnknownId(v: Vocab, id: int, skipSpecial: bool)
    requires id !in v.idToWord && id != EosId && !Skipped(id, skipSpecial)
    ensures DecodedWords(v, [id], skipSpecial) == [Placeholder(id)]
    ensures var p := Placeholder(id);
      |p| >= 3 && p[0] == '[' && p[|p| - 1] == ']' && ParseInt(p[1..|p| - 1]) == Some(id)
  {
    DecodedWordsSingle(v, id, skipSpecial);
    var p := Placeholder(id);
    assert p[1..|p| - 1] == IntToString(id);
    ParseIntOfIntToString(id);
  }

  /** The index of the first space of `s`, or `|s|`. */
  function SpaceIndex(s: string): (i: nat)
    ensures i <= |s| && (i < |s| ==> s[i] == ' ')
    ensures forall j :: 0 <= j < i ==> s[j] != ' '
  {
    if |s| == 0 || s[0] == ' ' then 0 else 1 + SpaceIndex(s[1..])
  }

  /** `text.split(' ')`: the pieces between single spaces, empty ones included. */
  function SplitOnSpace(s: string): (pieces: seq<string>)
    ensures |pieces| > 0
    decreases |s|
  {
    var i := SpaceIndex(s);
    if i == |s| then [s] else [s[..i]] + SplitOnSpace(s[i + 1..])
  }

  /** Splitting the join of space-free words on spaces gives the words back. */
  lemma {:induction false} SplitJoin(words: seq<string>)
    requires |words| > 0
    requires forall k :: 0 <= k < |words| ==> NoSpace(words[k])
    ensures SplitOnSpace(Join(words)) == words
    decreases |words|
  {
    var w := words[0];
    if |words| == 1 {
      assert SpaceIndex(w) == |w|;
    } else {
      var rest := Join(words[1..]);
      var s := w + " " + rest;
      assert s == Join(words);
      var i := SpaceIndex(s);
      assert s[|w|] == ' ';
      assert i == |w|;
      assert s[..i] == w;
      assert s[i + 1..] == rest;
      SplitJoin(words[1..]);
      assert words == [w] + words[1..];
    }
  }

  /** No special token name can come out of the segmenter: each starts with
      the delimiter `<` and is longer than one character. */
  lemma SpecialNameNotToken(t: string, i: int)
    requires WellFormedToken(t) && 0 <= i < NumSpecial
    ensures t != SpecialNames[i]
  {
    assert SpecialNames[i][0] == '<' && |SpecialNames[i]| == 5;
  }

  /** A fresh store knows only the special names, so every segmented word
      is unseen. */
  lemma FreshUnseen(vocabSize: int, words: seq<string>)
    requires forall k :: 0 <= k < |words| ==> WellFormedToken(words[k])
    ensures Unseen(Init(vocabSize), words) == set w | w in words
  {
    forall k | 0 <= k < |words| ensures words[k] !in Init(vocabSize).wordToId {
      forall i | 0 <= i < NumSpecial ensures words[k] != SpecialNames[i] {
        SpecialNameNotToken(words[k], i);
      }
    }
  }

  /** In a dense store, a segmented word never maps to a special ID. */
  lemma TokenIdNotSpecial(v: Vocab, t: string)
    requires Dense(v) && WellFormedToken(t) && t in v.wordToId
    ensures v.wordToId[t] >= NumSpecial
  {
    var id := v.wordToId[t];
    if id < NumSpecial {
      assert v.idToWord[id] == SpecialNames[id];
      SpecialNameNotToken(t, id);
      assert false;
    }
  }

  /** IDs that spell out `words` in a dense store and then hit EOS decode
      to exactly `words`: a segmented word never sits on a special ID. */
  lemma DecodeWordIds(v: Vocab, ids: seq<int>, words: seq<string>, skipSpecial: bool)
    requires Dense(v)
    requires |words| < |ids| && ids[|words|] == EosId
    requires forall k :: 0 <= k < |words| ==>
      WellFormedToken(words[k]) && words[k] in v.wordToId && ids[k] == v.wordToId[words[k]]
    ensures DecodedWords(v, ids, skipSpecial) == words
  {
    var n := |words|;
    var prefix := ids[..n];
    forall k | 0 <= k < n
      ensures prefix[k] >= NumSpecial && prefix[k] in v.idToWord && v.idToWord[prefix[k]] == words[k]
    {
      TokenIdNotSpecial(v, words[k]);
    }
    BeforeEosOfPrefix(ids, n);
    assert Kept(prefix, skipSpecial) == prefix;
    var out := WordsOf(v, prefix);
    forall k | 0 <= k < n ensures out[k] == words[k] {
    }
  }

  /** The round trip: in the sequential regime, and when `max_length`
      leaves room for EOS, decoding what `encode` produced gives back
      exactly the segmented words, whether or not specials are skipped
      and whatever padding was asked for. */
  lemma {:induction false} EncodeDecodeRoundTrip(v: Vocab, text: string, maxLength: nat, padToMax: bool,
                              skipSpecial: bool, normalize: string -> string, hash: string -> int)
    requires Dense(v)
    requires v.nextId + |Unseen(v, Segment(normalize(text)))| <= v.vocabSize
    requires |Segment(normalize(text))| < maxLength
    ensures var r := Encode(v, text, normalize, hash, maxLength, padToMax);
      DecodedWords(r.vocab, r.ids, skipSpecial) == Segment(normalize(text))
  {
    var words := Segment(normalize(text));
    var r := Encode(v, text, normalize, hash, maxLength, padToMax);
    AssignAllDense(v, words, hash);
    assert r.vocab == AssignAll(v, words, hash).vocab;
    SegmentWellFormed(normalize(text));
    DecodeWordIds(r.vocab, r.ids, words, skipSpecial);
  }

  /** The round trip on a fresh tokenizer, as text: the decoded string is
      the tokens joined by single spaces, and splitting it on spaces gives
      the tokens back. */
  lemma {:induction false} FreshRoundTrip(vocabSize: int, text: string, maxLength: nat, padToMax: bool,
                       skipSpecial: bool, normalize: string -> string, hash: string -> int)
    requires NumSpecial < vocabSize
    requires NumSpecial + |set w | w in Segment(normalize(text))| <= vocabSize
    requires |Segment(normalize(text))| < maxLength
    ensures var r := Encode(Init(vocabSize), text, normalize, hash, maxLength, padToMax);
      && DecodeText(r.vocab, r.ids, skipSpecial) == Join(Segment(normalize(text)))
      && (|Segment(normalize(text))| > 0 ==>
            SplitOnSpace(DecodeText(r.vocab, r.ids, skipSpecial)) == Segment(normalize(text)))
  {
    var words := Segment(normalize(text));
    InitDense(vocabSize);
    SegmentWellFormed(normalize(text));
    FreshUnseen(vocabSize, words);
    EncodeDecodeRoundTrip(Init(vocabSize), text, maxLength, padToMax, skipSpecial, normalize, hash);
    if |words| > 0 {
      forall k | 0 <= k < |words| ensures NoSpace(words[k]) {
        assert WellFormedToken(words[k]);
      }
      SplitJoin(words);
    }
  }
}

=== FILE: collections.dfy ===
/** Small facts about sequences and sets, stated once for any element type
    so that the proofs about tokens and IDs can cite them instead of
    re-deriving them in a crowded context. */
module Collections {

  lemma AppendAssoc<T>(p: seq<T>, q: seq<T>, r: seq<T>)
    ensures (p + q) + r == p + (q + r)
  {
  }

  lemma AppendEmpty<T>(s: seq<T>)
    ensures s + [] == s && [] + s == s
  {
  }

  lemma SliceAtIndex<T>(s: seq<T>, i: nat)
    requires i < |s|
    ensures s[i..] == [s[i]] + s[i + 1..]
  {
  }

  lemma SplitAt<T>(s: seq<T>, i: nat)
    requires i < |s|
    ensures s[..i] + [s[i]] + s[i + 1..] == s
  {
  }

  lemma Regroup<T>(p: seq<T>, q: seq<T>, r: seq<T>, x: seq<T>)
    ensures p + (q + r + x) == (p + q + r) + x
  {
  }

  lemma Regroup5<T>(p: seq<T>, q: seq<T>, r: seq<T>, x: seq<T>, y: seq<T>)
    ensures p + q + (r + x + y) == (p + q + r) + x + y
  {
  }

  /** A non-empty prefix is the first element followed by a prefix of the rest. */
  lemma PrefixCons<T>(s: seq<T>, j: nat)
    requires 0 < j <= |s|
    ensures s[..j] == [s[0]] + s[1..][..j - 1]
  {
  }

  /** A subset is no larger than its superset. */
  lemma {:induction false} SubsetCard<T>(a: set<T>, b: set<T>)
    requires a <= b
    ensures |a| <= |b|
    decreases a
  {
    if a != {} {
      var x :| x in a;
      SubsetCard(a - {x}, b - {x});
    }
  }
}

=== FILE: decimal.dfy ===
/** Decimal text of integers: Python's `str(i)` for an `int` and its
    inverse `int(s)`, restricted to the canonical form `str` produces.
    The tokenizer uses them for the unknown-ID placeholder `[tid]` and
    for the string keys of a saved `id_to_word` map. */
module Decimal {
  import opened Wrappers

  predicate IsDigit(c: char) {
    '0' <= c <= '9'
  }

  function DigitChar(d: nat): (c: char)
    requires d < 10
    ensures IsDigit(c)
  {
    ('0' as int + d) as char
  }

  function DigitValue(c: char): (d: nat)
    requires IsDigit(c)
    ensures d < 10 && DigitChar(d) == c
  {
    c as int - '0' as int
  }

  predicate AllDigits(s: string) {
    forall i :: 0 <= i < |s| ==> IsDigit(s[i])
  }

  /** The form `str(n)` gives a natural number: at least one digit and no
      leading zero unless the number is zero itself. */
  predicate Canonical(s: string) {
    && |s| > 0
    && AllDigits(s)
    && (s[0] == '0' ==> |s| == 1)
  }

  /** The number a string of digits denotes, most significant digit first. */
  function DigitsValue(s: string): nat
    requires AllDigits(s)
    decreases |s|
  {
    if |s| == 0 then 0
    else DigitsValue(s[..|s| - 1]) * 10 + DigitValue(s[|s| - 1])
  }

  /** `str(n)` for a natural number. */
  function NatToString(n: nat): (s: string)
    ensures Canonical(s)
    ensures DigitsValue(s) == n
    decreases n
  {
    if n < 10 then [DigitChar(n)]
    else
      var prefix := NatToString(n / 10);
      var s := prefix + [DigitChar(n % 10)];
      assert s[..|s| - 1] == prefix;
      s
  }

  /** `str(i)` for any integer: a minus sign before the digits of a negative number. */
  function IntToString(i: int): (s: string)
    ensures |s| > 0
    ensures i < 0 <==> s[0] == '-'
  {
    if i < 0 then "-" + NatToString(-i) else NatToString(i)
  }

  /** `int(s)` on a natural-number string, or None when `s` is not canonical. */
  function ParseNat(s: string): Option<nat> {
    if Canonical(s) then Some(DigitsValue(s)) else None
  }

  /** `int(s)` on the strings `str` produces; None for everything else. */
  function ParseInt(s: string): Option<int> {
    if |s| > 0 && s[0] == '-' then
      match ParseNat(s[1..])
      case Some(n) => if n == 0 then None else Some(-(n as int))
      case None => None
    else
      match ParseNat(s)
      case Some(n) => Some(n)
      case None => None
  }

  /** A canonical digit string with a non-zero leading digit denotes a positive number. */
  lemma {:induction false} LeadingDigitPositive(s: string)
    requires Canonical(s) && s[0] != '0'
    ensures DigitsValue(s) > 0
    decreases |s|
  {
    if |s| > 1 {
      var prefix := s[..|s| - 1];
      assert prefix[0] == s[0];
      LeadingDigitPositive(prefix);
    } else {
      assert s[..|s| - 1] == [];
      assert DigitsValue(s) == DigitValue(s[0]);
    }
  }

  /** Canonical strings are exactly the images of NatToString: no two
      canonical strings denote the same number. */
  lemma {:induction false} CanonicalIsNatToString(s: string)
    requires Canonical(s)
    ensures NatToString(DigitsValue(s)) == s
    decreases |s|
  {
    var n := DigitsValue(s);
    if |s| == 1 {
      assert s[..|s| - 1] == [];
      assert DigitsValue(s[..|s| - 1]) == 0;
      assert n == DigitValue(s[0]);
    } else {
      var prefix := s[..|s| - 1];
      assert prefix[0] == s[0];
      LeadingDigitPositive(prefix);
      CanonicalIsNatToString(prefix);
      var last := DigitValue(s[|s| - 1]);
      assert n == DigitsValue(prefix) * 10 + last;
      assert n / 10 == DigitsValue(prefix) && n % 10 == last;
      assert s == prefix + [s[|s| - 1]];
    }
  }

  /** Reading back what `str` wrote gives the original integer. */
  lemma ParseIntOfIntToString(i: int)
    ensures ParseInt(IntToString(i)) == Some(i)
  {
    var s := IntToString(i);
    if i < 0 {
      assert s[1..] == NatToString(-i);
    } else {
      assert s == NatToString(i);
    }
  }

  /** Whatever `ParseInt` accepts is the `str` form of its result, so
      distinct accepted strings denote distinct integers. */
  lemma ParsedIsIntToString(s: string)
    requires ParseInt(s).Some?
    ensures IntToString(ParseInt(s).value) == s
  {
    if |s| > 0 && s[0] == '-' {
      CanonicalIsNatToString(s[1..]);
      assert s == "-" + s[1..];
    } else {
      CanonicalIsNatToString(s);
    }
  }

  /** `str` never maps two integers to the same text. */
  lemma IntToStringInjective(i: int, j: int)
    requires IntToString(i) == IntToString(j)
    ensures i == j
  {
    ParseIntOfIntToString(i);
    ParseIntOfIntToString(j);
  }
}

=== FILE: segmenter.dfy ===
/** The segmenter of `AlphaPackTokenizer._tokenize`: normalized text is
    split at spaces, which are dropped, and at delimiter characters, each
    of which becomes a one-character token of its own. */
module Segmenter {
  import opened Collections

  /** The tokenizer's delimiter characters (its `noktalar` string). */
  const Delimiters: string := ".,!?;:@#$%&*+-=/()[]{}\"\\'`~<>|^"

  /** Membership in Delimiters, by character ranges: the delimiters are
      exactly the ASCII punctuation characters other than the underscore. */
  predicate IsDelimiter(c: char) {
    && c != '_'
    && (('!' <= c <= '/') || (':' <= c <= '@') || ('[' <= c <= '`') || ('{' <= c <= '~'))
  }

  /** A character at which a token ends: the space or a delimiter. */
  predicate IsSeparator(c: char) {
    c == ' ' || IsDelimiter(c)
  }

  predicate NoSeparator(s: string) {
    forall j :: 0 <= j < |s| ==> !IsSeparator(s[j])
  }

  /** The word holds no space. */
  predicate NoSpace(w: string) {
    forall j :: 0 <= j < |w| ==> w[j] != ' '
  }

  /** What the segmenter may emit: a non-empty token without a space, which
      is either one delimiter alone or holds no delimiter at all. */
  predicate WellFormedToken(t: string) {
    && t != ""
    && NoSpace(t)
    && (forall j :: 0 <= j < |t| ==> IsDelimiter(t[j]) ==> |t| == 1)
  }

  /** The pending word, emitted only when it is not empty. */
  function Flush(word: string): seq<string> {
    if word == "" then [] else [word]
  }

  /** The token a separator itself contributes: nothing for a space, the
      character alone for a delimiter. */
  function SeparatorToken(c: char): seq<string> {
    if c == ' ' then [] else [[c]]
  }

  /** The position of the first separator of `s`, or `|s|` when there is none. */
  function FirstSeparator(s: string): (i: nat)
    ensures i <= |s|
    ensures i < |s| ==> IsSeparator(s[i])
    ensures forall j :: 0 <= j < i ==> !IsSeparator(s[j])
    decreases |s|
  {
    if |s| == 0 || IsSeparator(s[0]) then 0
    else 1 + FirstSeparator(s[1..])
  }

  /** The tokens of normalized text, defined by cutting at its first
      separator and segmenting the rest. */
  function Segment(s: string): (tokens: seq<string>)
    decreases |s|
  {
    var i := FirstSeparator(s);
    if i == |s| then Flush(s)
    else
      Flush(s[..i]) + SeparatorToken(s[i]) + Segment(s[i + 1..])
  }

  /** The tokenizer's scan (`_tokenize`): one pass over the normalized text
      with a pending-word buffer; `normalize` stands for `lower().strip()`. */
  method Tokenize(text: string, normalize: string -> string) returns (tokens: seq<string>)
    ensures tokens == Segment(normalize(text))
  {
    var s := normalize(text);
    tokens := [];
    var current := "";
    assert current + s[0..] == s;
    for i := 0 to |s|
      invariant NoSeparator(current)
      invariant tokens + Segment(current + s[i..]) == Segment(s)
    {
      var c := s[i];
      var nextTokens, nextCurrent := tokens, current;
      if c == ' ' {
        if current != "" {
          nextTokens := nextTokens + [current];
        }
        nextCurrent := "";
      } else if IsDelimiter(c) {
        if current != "" {
          nextTokens := nextTokens + [current];
        }
        nextTokens := nextTokens + [[c]];
        nextCurrent := "";
      } else {
        nextCurrent := current + [c];
      }
      SliceAtIndex(s, i);
      ScanStep(tokens, current, c, s[i + 1..], nextTokens, nextCurrent);
      tokens, current := nextTokens, nextCurrent;
    }
    assert current + s[|s|..] == current;
    SegmentOfWord(current);
    if current != "" {
      tokens := tokens + [current];
    }
  }

  /** One step of the scan keeps the loop invariant of Tokenize: at a
      separator the pending word and the separator's own token move to the
      output, any other character moves to the pending word. */
  lemma ScanStep(tokens: seq<string>, current: string, c: char, rest: string,
                 nextTokens: seq<string>, nextCurrent: string)
    requires NoSeparator(current)
    requires c == ' ' ==>
      nextTokens == (if current != "" then tokens + [current] else tokens) && nextCurrent == ""
    requires c != ' ' && IsDelimiter(c) ==>
      nextTokens == (if current != "" then tokens + [current] else tokens) + [[c]] && nextCurrent == ""
    requires !IsSeparator(c) ==> nextTokens == tokens && nextCurrent == current + [c]
    ensures NoSeparator(nextCurrent)
    ensures nextTokens + Segment(nextCurrent + rest) == tokens + Segment(current + ([c] + rest))
  {
    if IsSeparator(c) {
      assert nextTokens == tokens + Flush(current) + SeparatorToken(c) by {
        AppendEmpty(tokens);
      }
      AppendAssoc(current, [c], rest);
      assert "" + rest == rest;
      SegmentWordThenSeparator(current, c, rest);
      Regroup(tokens, Flush(current), SeparatorToken(c), Segment(rest));
    } else {
      AppendAssoc(current, [c], rest);
    }
  }

  /** Segment taken apart at the first separator of `s`. */
  lemma SegmentUnfold(s: string, i: nat)
    requires i == FirstSeparator(s) && i < |s|
    ensures Segment(s) == Flush(s[..i]) + SeparatorToken(s[i]) + Segment(s[i + 1..])
  {
  }

  /** The three facts FirstSeparator ensures pin its result down. */
  lemma FirstSeparatorUnique(s: string, i: nat)
    requires i <= |s|
    requires i < |s| ==> IsSeparator(s[i])
    requires forall j :: 0 <= j < i ==> !IsSeparator(s[j])
    ensures FirstSeparator(s) == i
  {
  }

  /** Text without separators is a single word (or nothing, when empty). */
  lemma SegmentOfWord(w: string)
    requires NoSeparator(w)
    ensures Segment(w) == Flush(w)
  {
    FirstSeparatorUnique(w, |w|);
    assert w[..|w|] == w;
  }

  /** A separator right after a word cuts there. */
  lemma SegmentWordThenSeparator(a: string, c: char, b: string)
    requires IsSeparator(c) && NoSeparator(a)
    ensures Segment(a + [c] + b) == Flush(a) + SeparatorToken(c) + Segment(b)
  {
    var s := a + [c] + b;
    assert forall j :: 0 <= j < |a| ==> s[j] == a[j];
    FirstSeparatorUnique(s, |a|);
    assert s[..|a|] == a;
    assert s[|a| + 1..] == b;
    SegmentUnfold(s, |a|);
  }

  /** The pieces of `a + [c] + b` around an index inside `a`. */
  lemma SplitInside<T>(a: seq<T>, c: T, b: seq<T>, i: nat)
    requires i < |a|
    ensures (a + [c] + b)[..i] == a[..i]
    ensures (a + [c] + b)[i] == a[i]
    ensures (a + [c] + b)[i + 1..] == a[i + 1..] + [c] + b
  {
  }

  /** A separator after the first one of `a` does not move the first cut. */
  lemma SegmentCutBefore(a: string, c: char, b: string, i: nat)
    requires i == FirstSeparator(a) && i < |a|
    ensures Segment(a + [c] + b)
         == Flush(a[..i]) + SeparatorToken(a[i]) + Segment(a[i + 1..] + [c] + b)
  {
    var s := a + [c] + b;
    SplitInside(a, c, b, i);
    FirstSeparatorUnique(s, i);
    SegmentUnfold(s, i);
  }

  /** Cutting at any separator, not only the first, splits the token
      sequence there: with SegmentOfWord this determines Segment uniquely. */
  lemma {:induction false} SegmentAtSeparator(a: string, c: char, b: string)
    requires IsSeparator(c)
    ensures Segment(a + [c] + b) == Segment(a) + SeparatorToken(c) + Segment(b)
    decreases |a|
  {
    var i := FirstSeparator(a);
    if i == |a| {
      SegmentOfWord(a);
      SegmentWordThenSeparator(a, c, b);
    } else {
      SegmentCutBefore(a, c, b, i);
      SegmentUnfold(a, i);
      SegmentAtSeparator(a[i + 1..], c, b);
      Regroup5(Flush(a[..i]), SeparatorToken(a[i]), Segment(a[i + 1..]), SeparatorToken(c), Segment(b));
    }
  }

  /** The segmenter emits no empty token and no token holding a space; a
      token holding a delimiter is that delimiter alone. */
  lemma {:induction false} SegmentWellFormed(s: string)
    ensures forall k :: 0 <= k < |Segment(s)| ==> WellFormedToken(Segment(s)[k])
    decreases |s|
  {
    var i := FirstSeparator(s);
    if i == |s| {
      SegmentOfWord(s);
    } else {
      SegmentUnfold(s, i);
      SegmentWellFormed(s[i + 1..]);
      var w := s[..i];
      assert NoSeparator(w);
      assert forall k :: 0 <= k < |Flush(w)| ==> WellFormedToken(Flush(w)[k]);
      assert forall k :: 0 <= k < |SeparatorToken(s[i])| ==> WellFormedToken(SeparatorToken(s[i])[k]);
    }
  }

  /** Concatenation of a token sequence. */
  function Concat(tokens: seq<string>): string {
    if |tokens| == 0 then "" else tokens[0] + Concat(tokens[1..])
  }

  /** The text with every space character removed. */
  function RemoveSpaces(s: string): string {
    if |s| == 0 then ""
    else (if s[0] == ' ' then "" else [s[0]]) + RemoveSpaces(s[1..])
  }

  lemma {:induction false} ConcatAppend(a: seq<string>, b: seq<string>)
    ensures Concat(a + b) == Concat(a) + Concat(b)
    decreases |a|
  {
    if |a| > 0 {
      assert (a + b)[1..] == a[1..] + b;
      ConcatAppend(a[1..], b);
    } else {
      assert a + b == b;
    }
  }

  lemma {:induction false} RemoveSpacesAppend(a: string, b: string)
    ensures RemoveSpaces(a + b) == RemoveSpaces(a) + RemoveSpaces(b)
    decreases |a|
  {
    if |a| > 0 {
      assert (a + b)[1..] == a[1..] + b;
      RemoveSpacesAppend(a[1..], b);
    } else {
      assert a + b == b;
    }
  }

  lemma {:induction false} RemoveSpacesOfWord(w: string)
    requires NoSeparator(w)
    ensures RemoveSpaces(w) == w
    decreases |w|
  {
    if |w| > 0 {
      RemoveSpacesOfWord(w[1..]);
      assert w == [w[0]] + w[1..];
    }
  }

  /** One cut of SegmentConcat: the word, the separator and the rest. */
  lemma ConcatOfCut(w: string, c: char, rest: string)
    requires NoSeparator(w) && IsSeparator(c)
    requires Concat(Segment(rest)) == RemoveSpaces(rest)
    ensures Concat(Flush(w) + SeparatorToken(c) + Segment(rest)) == RemoveSpaces(w + [c] + rest)
  {
    ConcatAppend(Flush(w) + SeparatorToken(c), Segment(rest));
    ConcatAppend(Flush(w), SeparatorToken(c));
    RemoveSpacesAppend(w + [c], rest);
    RemoveSpacesAppend(w, [c]);
    RemoveSpacesOfWord(w);
    assert Concat(Flush(w)) == w by {
      if w != "" {
        assert [w][1..] == [];
      }
    }
    assert Concat(SeparatorToken(c)) == RemoveSpaces([c]) by {
      assert [c][1..] == [];
      if c != ' ' {
        assert [[c]][1..] == [];
      }
    }
  }

  /** The inductive step of SegmentConcat at the first separator. */
  lemma ConcatAtFirstCut(s: string, i: nat)
    requires i == FirstSeparator(s) && i < |s|
    requires Concat(Segment(s[i + 1..])) == RemoveSpaces(s[i + 1..])
    ensures Concat(Segment(s)) == RemoveSpaces(s)
  {
    SegmentUnfold(s, i);
    ConcatOfCut(s[..i], s[i], s[i + 1..]);
    SplitAt(s, i);
  }

  /** Nothing but spaces is lost: the tokens concatenate back to the
      normalized text with its spaces removed. */
  lemma {:induction false} SegmentConcat(s: string)
    ensures Concat(Segment(s)) == RemoveSpaces(s)
    decreases |s|
  {
    var i := FirstSeparator(s);
    if i == |s| {
      SegmentOfWord(s);
      RemoveSpacesOfWord(s);
      if s != "" {
        assert [s][1..] == [];
      }
    } else {
      SegmentConcat(s[i + 1..]);
      ConcatAtFirstCut(s, i);
    }
  }

  /** The delimiter characters of a text, in order. */
  function DelimitersOf(s: string): string {
    if |s| == 0 then ""
    else (if IsDelimiter(s[0]) then [s[0]] else "") + DelimitersOf(s[1..])
  }

  /** The characters of the one-character delimiter tokens, in order. */
  function DelimiterTokens(tokens: seq<string>): string {
    if |tokens| == 0 then ""
    else
      (if |tokens[0]| == 1 && IsDelimiter(tokens[0][0]) then tokens[0] else "")
      + DelimiterTokens(tokens[1..])
  }

  lemma {:induction false} DelimitersOfAppend(a: string, b: string)
    ensures DelimitersOf(a + b) == DelimitersOf(a) + DelimitersOf(b)
    decreases |a|
  {
    if |a| > 0 {
      assert (a + b)[1..] == a[1..] + b;
      DelimitersOfAppend(a[1..], b);
    } else {
      assert a + b == b;
    }
  }

  lemma {:induction false} DelimiterTokensAppend(a: seq<string>, b: seq<string>)
    ensures DelimiterTokens(a + b) == DelimiterTokens(a) + DelimiterTokens(b)
    decreases |a|
  {
    if |a| > 0 {
      assert (a + b)[1..] == a[1..] + b;
      DelimiterTokensAppend(a[1..], b);
    } else {
      assert a + b == b;
    }
  }

  lemma {:induction false} DelimitersOfWord(w: string)
    requires NoSeparator(w)
    ensures DelimitersOf(w) == ""
    decreases |w|
  {
    if |w| > 0 {
      DelimitersOfWord(w[1..]);
    }
  }

  /** A word contributes no delimiter token. */
  lemma DelimiterTokensOfWord(w: string)
    requires NoSeparator(w)
    ensures DelimiterTokens(Flush(w)) == ""
  {
    if w != "" {
      assert !IsSeparator(w[0]);
      assert [w][1..] == [];
    }
  }

  /** One cut of SegmentDelimiters: the word, the separator and the rest. */
  lemma DelimitersOfCut(w: string, c: char, rest: string)
    requires NoSeparator(w) && IsSeparator(c)
    requires DelimiterTokens(Segment(rest)) == DelimitersOf(rest)
    ensures DelimiterTokens(Flush(w) + SeparatorToken(c) + Segment(rest)) == DelimitersOf(w + [c] + rest)
  {
    DelimiterTokensAppend(Flush(w) + SeparatorToken(c), Segment(rest));
    DelimiterTokensAppend(Flush(w), SeparatorToken(c));
    DelimitersOfAppend(w + [c], rest);
    DelimitersOfAppend(w, [c]);
    DelimitersOfWord(w);
    DelimiterTokensOfWord(w);
    assert DelimiterTokens(SeparatorToken(c)) == DelimitersOf([c]) by {
      assert [c][1..] == [];
      if c != ' ' {
        assert [[c]][1..] == [];
      }
    }
  }

  /** The inductive step of SegmentDelimiters at the first separator. */
  lemma DelimitersAtFirstCut(s: string, i: nat)
    requires i == FirstSeparator(s) && i < |s|
    requires DelimiterTokens(Segment(s[i + 1..])) == DelimitersOf(s[i + 1..])
    ensures DelimiterTokens(Segment(s)) == DelimitersOf(s)
  {
    SegmentUnfold(s, i);
    DelimitersOfCut(s[..i], s[i], s[i + 1..]);
    SplitAt(s, i);
  }

  /** Every delimiter of the text comes out as a one-character token of its
      own, in the order the delimiters occur, and no other token is one. */
  lemma {:induction false} SegmentDelimiters(s: string)
    ensures DelimiterTokens(Segment(s)) == DelimitersOf(s)
    decreases |s|
  {
    var i := FirstSeparator(s);
    if i == |s| {
      SegmentOfWord(s);
      DelimitersOfWord(s);
      DelimiterTokensOfWord(s);
    } else {
      SegmentDelimiters(s[i + 1..]);
      DelimitersAtFirstCut(s, i);
    }
  }

  /** The range test of IsDelimiter agrees with the listed delimiter string. */
  lemma DelimitersListed(c: char)
    ensures IsDelimiter(c) <==> c in Delimiters
  {
  }

  /** A word, a separator, a space, a word and a closing delimiter. */
  lemma {:induction false} SegmentTwoWords(w1: string, c: char, w2: string, d: char)
    requires NoSeparator(w1) && NoSeparator(w2) && w1 != "" && w2 != ""
    requires IsSeparator(c) && IsDelimiter(d)
    ensures Segment(w1 + ([c] + ([' '] + (w2 + [d])))) == [w1] + SeparatorToken(c) + [w2, [d]]
  {
    var tail := w2 + [d];
    assert Segment(tail) == [w2, [d]] by {
      SegmentOfWord("");
      AppendEmpty(tail);
      SegmentWordThenSeparator(w2, d, "");
      assert Flush(w2) + SeparatorToken(d) + [] == [w2, [d]];
    }
    assert Segment([' '] + tail) == Segment(tail) by {
      AppendEmpty([' '] + tail);
      AppendAssoc("", [' '], tail);
      SegmentWordThenSeparator("", ' ', tail);
      AppendEmpty(Segment(tail));
    }
    AppendAssoc(w1, [c], [' '] + tail);
    SegmentWordThenSeparator(w1, c, [' '] + tail);
  }

  /** An example: "Hello, World!" normalizes to "hello, world!"
      and splits into a word, a comma, a word and an exclamation mark. */
  lemma SegmentExample()
    ensures Segment("hello, world!") == ["hello", ",", "world", "!"]
  {
    SegmentTwoWords("hello", ',', "world", '!');
    ExampleParts();
  }

  lemma ExampleParts()
    ensures "hello" + ([','] + ([' '] + ("world" + ['!']))) == "hello, world!"
    ensures ["hello"] + SeparatorToken(',') + ["world", ['!']] == ["hello", ",", "world", "!"]
  {
  }
}

=== FILE: snapshot.dfy ===
/** `save_vocab` and `load_vocab` of `AlphaPackTokenizer` on the JSON
    object they exchange. The file I/O and the JSON text are left out: a
    snapshot is the parsed object, each top-level field present or not. */
module Snapshot {
  import opened Wrappers
  import opened Decimal
  import opened Vocabulary

  /** The saved object. JSON object keys are strings, so `id_to_word` is
      stored with its integer keys written out by `str`. */
  datatype Snapshot = Snapshot(
    wordToId: Option<map<string, int>>,
    idToWord: Option<map<string, string>>,
    vocabSize: Option<int>,
    nextId: Option<int>)

  /** Why a load raised: a `KeyError` for a missing mandatory field, or a
      `ValueError` from `int(k)` on a key that is not an integer. */
  datatype LoadError = MissingWordToId | MissingIdToWord | MalformedKey

  /** A load either completes, or raises after having replaced part of the
      state: `vocab` is the store as the exception leaves it. */
  datatype LoadOutcome = Loaded(vocab: Vocab) | Failed(vocab: Vocab, error: LoadError)

  lemma IntToStringInjectiveAll()
    ensures forall i, j :: IntToString(i) == IntToString(j) ==> i == j
  {
    forall i, j | IntToString(i) == IntToString(j) ensures i == j {
      IntToStringInjective(i, j);
    }
  }

  lemma ParseIntOfIntToStringAll()
    ensures forall i :: ParseInt(IntToString(i)) == Some(i)
  {
    forall i ensures ParseInt(IntToString(i)) == Some(i) {
      ParseIntOfIntToString(i);
    }
  }

  lemma ParsedInjectiveAll(m: map<string, string>)
    ensures forall k, l :: k in m && l in m && ParseInt(k).Some? && ParseInt(l).Some? && ParseInt(k).value == ParseInt(l).value ==> k == l
  {
    forall k, l | k in m && l in m && ParseInt(k).Some? && ParseInt(l).Some? && ParseInt(k).value == ParseInt(l).value ensures k == l {
      ParsedIsIntToString(k);
      ParsedIsIntToString(l);
    }
  }

  /** `{str(k): v for k, v in id_to_word.items()}`. */
  function StringifyKeys(m: map<int, string>): (r: map<string, string>)
    ensures forall i :: i in m <==> IntToString(i) in r
    ensures forall i :: i in m ==> r[IntToString(i)] == m[i]
  {
    IntToStringInjectiveAll();
    map i | i in m :: IntToString(i) := m[i]
  }

  /** Every key `str` wrote is one `int` accepts. */
  lemma StringifiedKeysParse(m: map<int, string>)
    ensures !HasMalformedKey(StringifyKeys(m))
  {
    var t := StringifyKeys(m);
    forall k | k in t ensures ParseInt(k).Some? {
      var i :| i in m && IntToString(i) == k;
      ParseIntOfIntToString(i);
    }
  }

  /** Whether `int(k)` raises on some key. */
  predicate HasMalformedKey(m: map<string, string>) {
    exists k :: k in m && ParseInt(k).None?
  }

  /** `{int(k): v for k, v in ...items()}` over the keys that parse (Load
      rejects the others first): the entry for `i` is the one stored under
      `str(i)`. */
  function ParseKeys(m: map<string, string>): (r: map<int, string>)
    ensures forall i :: i in r <==> IntToString(i) in m
    ensures forall i :: i in r ==> r[i] == m[IntToString(i)]
  {
    ParseIntOfIntToStringAll();
    ParsedInjectiveAll(m);
    var r := map k | k in m && ParseInt(k).Some? :: ParseInt(k).value := m[k];
    forall i ensures i in r <==> IntToString(i) in m {
      if i in r {
        var k :| k in m && ParseInt(k).Some? && ParseInt(k).value == i;
        ParsedIsIntToString(k);
      }
    }
    forall i | i in r ensures r[i] == m[IntToString(i)] {
    }
    r
  }

  /** ParseKeys undoes any text-keyed map whose keys are the `str` forms
      of the keys of `m`, holding the same entries. */
  lemma ParseKeysInverse(t: map<string, string>, m: map<int, string>)
    requires forall i :: i in m <==> IntToString(i) in t
    requires forall i :: i in m ==> t[IntToString(i)] == m[i]
    ensures ParseKeys(t) == m
  {
    var r := ParseKeys(t);
    assert forall i :: i in r <==> i in m;
    assert r.Keys == m.Keys;
    assert forall i :: i in r ==> r[i] == m[i];
  }

  /** Every key `str` wrote parses back, to the entry it came from. */
  lemma {:induction false} ParseStringifyKeys(m: map<int, string>)
    ensures ParseKeys(StringifyKeys(m)) == m
  {
    ParseKeysInverse(StringifyKeys(m), m);
  }

  /** `save_vocab`: the four fields of the store, `id_to_word` keyed by text. */
  function Save(v: Vocab): (s: Snapshot)
    ensures s.wordToId == Some(v.wordToId)
    ensures s.idToWord.Some? && forall i :: i in v.idToWord <==> IntToString(i) in s.idToWord.value
    ensures s.vocabSize == Some(v.vocabSize) && s.nextId == Some(v.nextId)
  {
    Snapshot(Some(v.wordToId), Some(StringifyKeys(v.idToWord)), Some(v.vocabSize), Some(v.nextId))
  }

  /** `load_vocab` on the store `v`, field by field as the source assigns
      them: `word_to_id` is replaced before `id_to_word` is read, so a
      failure there leaves the new `word_to_id` next to the old `id_to_word`.
      A missing `vocab_size` or `next_id` defaults to the loaded word count. */
  function Load(v: Vocab, s: Snapshot): (r: LoadOutcome)
    ensures s.wordToId.None? <==> r == Failed(v, MissingWordToId)
    ensures s.wordToId.Some? ==> r.vocab.wordToId == s.wordToId.value
    ensures s.wordToId.Some? && s.idToWord.None? ==>
      r == Failed(v.(wordToId := s.wordToId.value), MissingIdToWord)
    ensures r.Loaded? <==> s.wordToId.Some? && s.idToWord.Some? && !HasMalformedKey(s.idToWord.value)
    ensures r.Failed? && r.error.MalformedKey? <==>
      s.wordToId.Some? && s.idToWord.Some? && HasMalformedKey(s.idToWord.value)
    ensures r.Failed? && r.error.MalformedKey? ==> r.vocab == v.(wordToId := s.wordToId.value)
    ensures r.Loaded? ==>
      && s.wordToId.Some? && s.idToWord.Some?
      && (forall i :: i in r.vocab.idToWord <==> IntToString(i) in s.idToWord.value)
      && (forall i :: i in r.vocab.idToWord ==> r.vocab.idToWord[i] == s.idToWord.value[IntToString(i)])
      && r.vocab.vocabSize == s.vocabSize.GetOr(|s.wordToId.value|)
      && r.vocab.nextId == s.nextId.GetOr(|s.wordToId.value|)
  {
    match s.wordToId
    case None => Failed(v, MissingWordToId)
    case Some(words) =>
      var partial := v.(wordToId := words);
      match s.idToWord
      case None => Failed(partial, MissingIdToWord)
      case Some(ids) =>
        if HasMalformedKey(ids) then Failed(partial, MalformedKey)
        else
          Loaded(Vocab(words, ParseKeys(ids), s.nextId.GetOr(|words|), s.vocabSize.GetOr(|words|)))
  }

  /** Loading a saved store restores it exactly, whatever state it is
      loaded into. */
  lemma {:induction false} SaveLoadRoundTrip(v: Vocab, w: Vocab)
    ensures Load(w, Save(v)) == Loaded(v)
  {
    StringifiedKeysParse(v.idToWord);
    ParseStringifyKeys(v.idToWord);
  }

  /** The constructor: the fresh store, replaced by the stored one when a
      vocabulary file is given and exists. Without a file the store holds
      just the five specials, in the sequential regime when the capacity
      exceeds them. With one, a successful load holds the file's maps, and
      its capacity and counter come from the file or default to the word
      count, whatever `vocabSize` was passed; every failure leaves the fresh
      `id_to_word` in place. */
  function New(vocabSize: int := DefaultVocabSize, stored: Option<Snapshot> := None): (r: LoadOutcome)
    ensures stored.None? ==> r.Loaded? && Size(r.vocab) == NumSpecial
    ensures stored.None? ==> r.vocab.vocabSize == vocabSize && r.vocab.nextId == NumSpecial
    ensures stored.None? && vocabSize > NumSpecial ==> Dense(r.vocab)
    ensures stored.Some? ==>
      (r.Loaded? <==> stored.value.wordToId.Some? && stored.value.idToWord.Some?
                      && !HasMalformedKey(stored.value.idToWord.value))
    ensures r.Failed? ==> r.vocab.idToWord == Init(vocabSize).idToWord
    ensures stored.Some? && r.Loaded? ==>
      var words := stored.value.wordToId.value;
      && r.vocab.wordToId == words
      && (forall i :: i in r.vocab.idToWord <==> IntToString(i) in stored.value.idToWord.value)
      && (forall i :: i in r.vocab.idToWord ==>
            r.vocab.idToWord[i] == stored.value.idToWord.value[IntToString(i)])
      && r.vocab.vocabSize == stored.value.vocabSize.GetOr(|words|)
      && r.vocab.nextId == stored.value.nextId.GetOr(|words|)
  {
    match stored
    case None =>
      InitSize(vocabSize);
      assert vocabSize > NumSpecial ==> Dense(Init(vocabSize)) by {
        if vocabSize > NumSpecial { InitDense(vocabSize); }
      }
      Loaded(Init(vocabSize))
    case Some(s) => Load(Init(vocabSize), s)
  }

  /** Restoring from a saved file yields the saved store, whatever capacity
      the constructor was given. */
  lemma {:induction false} NewFromSaved(vocabSize: int, v: Vocab)
    ensures New(vocabSize, Some(Save(v))) == Loaded(v)
  {
    SaveLoadRoundTrip(v, Init(vocabSize));
  }

  /** A load is not atomic: when `id_to_word` is missing, the exception
      leaves a store whose `word_to_id` is the file's while `id_to_word`,
      the counter and the capacity are still the old ones. */
  lemma LoadNotAtomic(v: Vocab, words: map<string, int>)
    ensures var r := Load(v, Snapshot(Some(words), None, None, None));
      && r.Failed?
      && r.vocab.wordToId == words
      && r.vocab.idToWord == v.idToWord && r.vocab.nextId == v.nextId && r.vocab.vocabSize == v.vocabSize
  {
  }
}

=== FILE: vocabulary.dfy ===
/** The vocabulary store of `AlphaPackTokenizer`: the `word_to_id` and
    `id_to_word` maps, the `next_id` counter and the `vocab_size` capacity,
    threaded through pure functions as an immutable record. */
module Vocabulary {

  const PadId := 0
  const EosId := 1
  const UnkId := 2
  const SepId := 3
  const BosId := 4

  /** The special tokens, listed at their IDs 0 to 4. */
  const SpecialNames: seq<string> := ["<PAD>", "<EOS>", "<UNK>", "<SEP>", "<BOS>"]

  /** `len(self.special_tokens)`: the first ID a new word can get. */
  const NumSpecial := 5

  const DefaultVocabSize := 60000

  datatype Vocab = Vocab(
    wordToId: map<string, int>,
    idToWord: map<int, string>,
    nextId: int,
    vocabSize: int)

  /** The state the constructor builds: the five special tokens in both maps
      and the counter just past them. */
  function Init(vocabSize: int := DefaultVocabSize): (v: Vocab)
    ensures v.vocabSize == vocabSize && v.nextId == NumSpecial
    ensures SpecialsPresent(v)
    ensures forall w :: w in v.wordToId <==> w in SpecialNames
    ensures forall i :: i in v.idToWord <==> 0 <= i < NumSpecial
  {
    Vocab(
      map["<PAD>" := PadId, "<EOS>" := EosId, "<UNK>" := UnkId, "<SEP>" := SepId, "<BOS>" := BosId],
      map[PadId := "<PAD>", EosId := "<EOS>", UnkId := "<UNK>", SepId := "<SEP>", BosId := "<BOS>"],
      NumSpecial,
      vocabSize)
  }

  /** `__len__`: the number of words the store knows, special tokens included. */
  function Size(v: Vocab): nat {
    |v.wordToId|
  }

  /** `get_vocab`: the word-to-ID map (a copy in the source; values are immutable here). */
  function GetVocab(v: Vocab): (m: map<string, int>)
    ensures |m| == Size(v)
    ensures forall w :: w in m <==> w in v.wordToId
    ensures forall w :: w in m ==> m[w] == v.wordToId[w]
  {
    v.wordToId
  }

  /** Each special token is mapped to its ID and back. */
  predicate SpecialsPresent(v: Vocab) {
    forall i :: 0 <= i < NumSpecial ==>
      && SpecialNames[i] in v.wordToId && v.wordToId[SpecialNames[i]] == i
      && i in v.idToWord && v.idToWord[i] == SpecialNames[i]
  }

  /** `id_to_word` points only at words that map back to that ID. */
  predicate Consistent(v: Vocab) {
    forall i :: i in v.idToWord ==> v.idToWord[i] in v.wordToId && v.wordToId[v.idToWord[i]] == i
  }

  /** Every ID handed out lies in `[0, vocabSize)`. */
  predicate IdsInRange(v: Vocab) {
    forall w :: w in v.wordToId ==> 0 <= v.wordToId[w] < v.vocabSize
  }

  /** The invariant every reachable state keeps, hash collisions included. */
  predicate Valid(v: Vocab) {
    && NumSpecial < v.vocabSize
    && NumSpecial <= v.nextId <= v.vocabSize
    && SpecialsPresent(v)
    && Consistent(v)
    && IdsInRange(v)
  }

  /** The sequential regime: the two maps are exact inverses and every ID in
      use lies below the counter, so the next ID is fresh. */
  predicate Dense(v: Vocab) {
    && Valid(v)
    && forall w :: w in v.wordToId ==>
         && v.wordToId[w] < v.nextId
         && v.wordToId[w] in v.idToWord
         && v.idToWord[v.wordToId[w]] == w
  }

  /** Python's floor division `a // d`. */
  function FloorDiv(a: int, d: int): int
    requires d != 0
  {
    if d > 0 then a / d else (-a) / (-d)
  }

  /** Python's `a % d`: the remainder completing floor division, which takes
      the sign of the divisor (Dafny's `%` is never negative). */
  function FloorMod(a: int, d: int): (r: int)
    requires d != 0
    ensures a == d * FloorDiv(a, d) + r
    ensures d > 0 ==> 0 <= r < d
    ensures d < 0 ==> d < r <= 0
  {
    if d > 0 then a % d else -((-a) % (-d))
  }

  /** The overflow ID of a word once capacity is exhausted:
      `hash(word) % (vocab_size - 5) + 5`. With `vocab_size > 5` it lies in
      `[5, vocab_size)`; with `vocab_size < 5` the divisor is negative and
      it lands in `(vocab_size, 5]`, over a special or past the capacity. */
  function HashSlot(vocabSize: int, h: int): (id: int)
    requires vocabSize != NumSpecial
    ensures vocabSize > NumSpecial ==> NumSpecial <= id < vocabSize
    ensures vocabSize < NumSpecial ==> vocabSize < id <= NumSpecial
  {
    FloorMod(h, vocabSize - NumSpecial) + NumSpecial
  }

  /** What `_word_to_id` needs to return normally: only the hash path can
      raise, dividing by `vocab_size - 5`, so it must not be reached with
      `vocab_size == 5`. */
  predicate CanAssign(v: Vocab, word: string) {
    word in v.wordToId || v.nextId < v.vocabSize || v.vocabSize != NumSpecial
  }

  datatype Assigned = Assigned(vocab: Vocab, id: int)

  /** `_word_to_id`: the stored ID of a known word; otherwise the next
      sequential ID while capacity lasts, then the unchecked hash slot. */
  function WordToId(v: Vocab, word: string, hash: string -> int): (r: Assigned)
    requires CanAssign(v, word)
    ensures word in r.vocab.wordToId && r.vocab.wordToId[word] == r.id
    ensures word in v.wordToId ==> r.vocab == v && r.id == v.wordToId[word]
    ensures word !in v.wordToId && v.nextId < v.vocabSize ==>
      r.id == v.nextId && r.vocab.nextId == v.nextId + 1
    ensures word !in v.wordToId && v.nextId >= v.vocabSize ==>
      r.id == HashSlot(v.vocabSize, hash(word)) && r.vocab.nextId == v.nextId
    ensures word !in v.wordToId ==> r.id in r.vocab.idToWord && r.vocab.idToWord[r.id] == word
    ensures r.vocab.wordToId.Keys == v.wordToId.Keys + {word}
    ensures forall u :: u in v.wordToId ==> r.vocab.wordToId[u] == v.wordToId[u]
    ensures word !in v.wordToId ==> r.vocab.idToWord.Keys == v.idToWord.Keys + {r.id}
    ensures forall i :: i in v.idToWord && i != r.id ==> r.vocab.idToWord[i] == v.idToWord[i]
    ensures r.vocab.vocabSize == v.vocabSize
  {
    if word in v.wordToId then
      Assigned(v, v.wordToId[word])
    else
      var id := if v.nextId < v.vocabSize then v.nextId else HashSlot(v.vocabSize, hash(word));
      var next := if v.nextId < v.vocabSize then v.nextId + 1 else v.nextId;
      Assigned(Vocab(v.wordToId[word := id], v.idToWord[id := word], next, v.vocabSize), id)
  }

  /** The constructor's state is valid and dense once the capacity exceeds
      the special tokens. */
  lemma InitDense(vocabSize: int)
    requires vocabSize > NumSpecial
    ensures Dense(Init(vocabSize))
  {
    var v := Init(vocabSize);
    forall w | w in v.wordToId
      ensures v.wordToId[w] < v.nextId && v.wordToId[w] in v.idToWord && v.idToWord[v.wordToId[w]] == w
    {
      assert w in SpecialNames;
      var i :| 0 <= i < NumSpecial && SpecialNames[i] == w;
    }
  }

  /** A fresh tokenizer knows exactly its five special tokens. */
  lemma InitSize(vocabSize: int)
    ensures Size(Init(vocabSize)) == NumSpecial
  {
    var m1 := map["<PAD>" := PadId];
    var m2 := m1["<EOS>" := EosId];
    assert "<EOS>" !in m1 by { assert "<EOS>"[1] != "<PAD>"[1]; }
    var m3 := m2["<UNK>" := UnkId];
    assert "<UNK>" !in m2 by { assert "<UNK>"[1] != "<PAD>"[1] && "<UNK>"[1] != "<EOS>"[1]; }
    var m4 := m3["<SEP>" := SepId];
    assert "<SEP>" !in m3 by {
      assert "<SEP>"[1] != "<PAD>"[1] && "<SEP>"[1] != "<EOS>"[1] && "<SEP>"[1] != "<UNK>"[1];
    }
    var m5 := m4["<BOS>" := BosId];
    assert "<BOS>" !in m4 by {
      assert "<BOS>"[1] != "<PAD>"[1] && "<BOS>"[1] != "<EOS>"[1];
      assert "<BOS>"[1] != "<UNK>"[1] && "<BOS>"[1] != "<SEP>"[1];
    }
    assert Init(vocabSize).wordToId == m5;
  }

  /** `_word_to_id` keeps the invariant on every path, the lossy hash path
      included: special tokens stay put, `id_to_word` still points only at
      words mapping back to the same ID, IDs stay in range and
      `next_id <= vocab_size`. */
  lemma WordToIdValid(v: Vocab, word: string, hash: string -> int)
    requires Valid(v)
    ensures Valid(WordToId(v, word, hash).vocab)
  {
    var r := WordToId(v, word, hash);
    if word !in v.wordToId {
      forall i | i in r.vocab.idToWord
        ensures r.vocab.idToWord[i] in r.vocab.wordToId && r.vocab.wordToId[r.vocab.idToWord[i]] == i
      {
        if i != r.id {
          assert v.idToWord[i] in v.wordToId;
        }
      }
      forall i | 0 <= i < NumSpecial
        ensures SpecialNames[i] in r.vocab.wordToId && r.vocab.wordToId[SpecialNames[i]] == i
        ensures i in r.vocab.idToWord && r.vocab.idToWord[i] == SpecialNames[i]
      {
        assert r.id != i by {
          if v.nextId < v.vocabSize {
            assert r.id == v.nextId;
          }
        }
      }
    }
  }

  /** In the sequential regime `_word_to_id` keeps the maps exact inverses,
      so the returned ID decodes to the word, and a new word's ID is larger
      than every ID already in use. */
  lemma WordToIdDense(v: Vocab, word: string, hash: string -> int)
    requires Dense(v)
    requires word in v.wordToId || v.nextId < v.vocabSize
    ensures Dense(WordToId(v, word, hash).vocab)
    ensures WordToId(v, word, hash).id in WordToId(v, word, hash).vocab.idToWord
    ensures WordToId(v, word, hash).vocab.idToWord[WordToId(v, word, hash).id] == word
    ensures word !in v.wordToId ==>
      forall u :: u in v.wordToId ==> v.wordToId[u] < WordToId(v, word, hash).id
  {
    var r := WordToId(v, word, hash);
    WordToIdValid(v, word, hash);
    if word !in v.wordToId {
      assert v.nextId !in v.idToWord;
      forall u | u in r.vocab.wordToId
        ensures r.vocab.wordToId[u] < r.vocab.nextId
        ensures r.vocab.wordToId[u] in r.vocab.idToWord
        ensures r.vocab.idToWord[r.vocab.wordToId[u]] == u
      {
        if u != word {
          assert v.wordToId[u] < v.nextId;
        }
      }
    }
  }

  /** Looking a word up twice in a row gives the same ID, and the second
      lookup changes nothing. */
  lemma WordToIdIdempotent(v: Vocab, word: string, hash: string -> int)
    requires CanAssign(v, word)
    ensures WordToId(WordToId(v, word, hash).vocab, word, hash) == WordToId(v, word, hash)
  {
  }

  /** After a lookup, `get_vocab` shows the word at the returned ID and
      every earlier entry unchanged. */
  lemma GetVocabAfterLookup(v: Vocab, word: string, hash: string -> int)
    requires CanAssign(v, word)
    ensures GetVocab(WordToId(v, word, hash).vocab) == GetVocab(v)[word := WordToId(v, word, hash).id]
  {
  }

  /** The store grows by exactly one entry per new word, on the hash path
      too: the key count is not bounded by the capacity. */
  lemma WordToIdSize(v: Vocab, word: string, hash: string -> int)
    requires CanAssign(v, word)
    ensures Size(WordToId(v, word, hash).vocab) == Size(v) + (if word in v.wordToId then 0 else 1)
  {
  }
}

=== FILE: wrappers.dfy ===
/** The optional-value datatype used across the tokenizer model. */
module Wrappers {

  /** A value that may be absent: a dictionary key that is not there,
      a string that does not parse. */
  datatype Option<+T> = None | Some(value: T) {

    /** The wrapped value, or `default` when there is none (Python's `dict.get(key, default)`). */
    function GetOr(default: T): T {
      match this
      case Some(v) => v
      case None => default
    }
  }
}
